=== FILE: README.md ===
# Strided tensor layout model

A Dafny model of the tensor container of `infer-engine` (`src/data/tensor.cc`):
a tensor is an element count, a shape (extent per axis), a stride per axis and
a handle on a shared, reference-counted element buffer. The model covers the
five constructors, copy and move construction and assignment, linear and
multi-index element access (`operator[]` and `at`, read and write), and the two
layout transforms that are defined: `reshape`, a C-order view over the same
buffer, and `transpose(axes)`, which permutes extents and strides together over
the same buffer.

## Layout

- `wrappers.dfy` (`Wrappers`): `Option`, `Result`, and `Error`. The two error
  kinds stand for `std::invalid_argument` and `std::out_of_range`, each with the
  message tensor.cc throws, so which check failed first is visible.
- `sequences.dfy` (`Sequences`): `Sum`, `Product`, permutations of axis
  positions, `Inverse`, and the facts that sums and products ignore order.
- `layout.dfy` (`Layout`): the C-order stride law, the reference strides
  `CStrides` (suffix products) and the stride loop `ComputeStrides`,
  the flattened offset `Offset` and the offset loop `ComputeOffset`,
  the offset bound, the bijection `Unravel` between offsets and multi-indices,
  and offsets under permuted strides.
- `buffers.dfy` (`Buffers`): the live buffers as a heap `seq<seq<T>>` indexed
  by `BufferId`. Tensors holding the same id alias one buffer, as holders of
  one `shared_ptr` do. Allocation appends, so a new buffer never aliases an
  existing tensor.
- `tensor.dfy` (`Tensors`): the `Tensor` datatype, its invariant `Valid`, the
  operations.
- `tensor_laws.dfy` (`TensorLaws`): aliasing and independence of buffers,
  copy/move, round trips and invariants of reshape and transpose.
- `scenarios.dfy` (`TensorScenarios`): the concrete cases of
  `tests/test_tensor.cc`.

The accessors `size()`, `shape()`, `strides()` and `data()` are the fields of
the `Tensor` datatype. The buffer a tensor reads is `heap[t.data.value]`.
The element type is generic. The zero written by the shape-only constructor
is passed in as `zero`.

`reshape` shares the buffer. It does not copy. `transpose` is the metadata
form: it moves no data, and its result is usually not C-order.

## Model

| member | source | states |
|---|---|---|
| `Layout.CStrides` | src/data/tensor.cc:24-27 | the suffix-product strides satisfy the C-order law: one stride per axis, last stride 1, stride[i] = shape[i+1] * stride[i+1] |
| `Layout.ComputeStrides` | src/data/tensor.cc:46-49 | the downward stride loop yields strides obeying the C-order law (by `COrderUnique`, the suffix products) |
| `Layout.COrderUnique` | src/data/tensor.cc:24-27 | the stride law that this loop (and its copies in the other constructors and in `reshape`) establishes determines the strides uniquely: any strides obeying it are the suffix products |
| `Layout.ComputeOffset` | src/data/tensor.cc:151-154 | the accumulation loop computes the dot product of the supplied indices with the leading strides |
| `Layout.OffsetBound` | src/data/tensor.cc:150-159 | under C-order strides, in-range indices over any prefix of the axes of a shape with positive product give an offset in [0, product), negative extents included |
| `Layout.OffsetBoundFull` | src/data/tensor.cc:150-158 | a full multi-index in range on every axis forces a positive product and an offset in [0, product) |
| `Layout.Unravel` | src/data/tensor.cc:150-158 | `Unravel` is the inverse of this addressing, not code of tensor.cc: every offset in [0, product) is the C-order offset of some in-range multi-index |
| `Layout.UnravelOffset` | src/data/tensor.cc:150-158 | distinct in-range multi-indices have distinct C-order offsets: unravelling an offset returns its multi-index |
| `Layout.PermutedOffset` | src/data/tensor.cc:255-258 | indexing with strides reordered by a permutation reaches the offset of the inversely permuted multi-index under the original strides |
| `Layout.PositiveShapeFits` | src/data/tensor.cc:22-23 | when every extent is at least 1, an element count that fits an `int` means every partial product of the accumulation fits too |
| `Sequences.ProductPermute` | src/data/tensor.cc:253-261 | a permuted shape has the same element count |
| `Sequences.Inverse` | src/data/tensor.cc:255-258 | the inverse of an axes permutation is a permutation that undoes it on both sides |
| `Tensors.NewZeroed` | src/data/tensor.cc:33-50 | fails with "shape must not be empty" exactly on an empty shape; otherwise size = product(shape), C-order strides, a fresh buffer of that length, every element zero, older buffers untouched |
| `Tensors.NewFromPointer` | src/data/tensor.cc:52-71 | empty shape fails first, then a null pointer; otherwise a fresh buffer holding the first product(shape) pointed-to elements, C-order strides |
| `Tensors.NewFromValues` | src/data/tensor.cc:73-92 | empty shape fails first, then empty data; otherwise a fresh buffer holding the values, C-order strides |
| `Tensors.NewShared` | src/data/tensor.cc:11-28 | empty shape fails first, then a null buffer; otherwise a C-order tensor holding the given buffer itself |
| `Tensors.CopyOf` | src/data/tensor.cc:94-99 | the copy has the same size, shape and strides, and holds the same buffer |
| `Tensors.CopyAssign` | src/data/tensor.cc:101-110 | after copy assignment, self-assignment included, the target holds `other`'s metadata and buffer |
| `Tensors.MoveOf` | src/data/tensor.cc:112-117 | the target takes all four fields; `other` becomes size 0, no axes, no strides, no buffer |
| `Tensors.MoveAssign` | src/data/tensor.cc:119-128 | as the move constructor, except that a self-move leaves the object as it was |
| `Tensors.Get` | src/data/tensor.cc:133-147 | linear access succeeds iff 0 <= index < size, returning buffer[index]; otherwise "index out of range" |
| `Tensors.At` | src/data/tensor.cc:173-181 | `at(index)` has exactly the outcome of linear `operator[]` |
| `Tensors.GetAt` | src/data/tensor.cc:149-171 | multi-index access is linear access at the dot product of the supplied indices with the strides; only that offset is checked |
| `Tensors.AtIndices` | src/data/tensor.cc:183-191 | `at(indices)` has exactly the outcome of multi-index `operator[]` |
| `Tensors.Set` | src/data/tensor.cc:133-139 | a write through the returned reference succeeds iff the index is in [0, size) and changes exactly that cell of the tensor's buffer |
| `Tensors.SetAt` | src/data/tensor.cc:149-159 | a write through the multi-index reference changes exactly the cell at the flattened offset, when that offset is in [0, size) |
| `Tensors.Reshape` | src/data/tensor.cc:218-242 | fails on an empty shape, then on a product different from size ("size mismatch"); otherwise same size and buffer, the new shape, C-order strides |
| `Tensors.Transpose` | src/data/tensor.cc:244-267 | fails on empty axes, then on a rank mismatch; otherwise extent i and stride i are those of axis axes[i], size and buffer unchanged |
| `TensorLaws.DefaultHoldsNothing` | src/data/tensor.cc:30-31 | the default tensor is valid, every linear access on it is out of range, and it cannot be transposed |
| `TensorLaws.AllocKeepsElements` | src/data/tensor.cc:43 | allocating a new buffer changes no element that an existing tensor reads |
| `TensorLaws.WriteVisibleThroughAlias` | src/data/tensor.cc:95-99 | a write through one tensor is read back through any tensor holding the same buffer, such as a copy, reshape or transpose |
| `TensorLaws.WriteIsolated` | src/data/tensor.cc:138 | a write through one buffer leaves every tensor over another buffer unchanged |
| `TensorLaws.ConstructedIsIndependent` | src/data/tensor.cc:85-86 | a tensor built from values reads them back by linear index, and writes to it change nothing an earlier tensor reads |
| `TensorLaws.MoveTransfersElements` | src/data/tensor.cc:113-117 | the moved-to tensor reads what the source read; the moved-from tensor reads nothing |
| `TensorLaws.ReshapeValid` | src/data/tensor.cc:230-239 | reshape keeps the invariant size = product(shape) with one stride per axis |
| `TensorLaws.ReshapeKeepsFlatOrder` | src/data/tensor.cc:231-234 | a reshaped view reads the same element as its source at every linear index |
| `TensorLaws.ReshapeRoundTrip` | src/data/tensor.cc:219-242 | reshaping a C-order tensor and reshaping back restores it exactly |
| `TensorLaws.TransposeValid` | src/data/tensor.cc:253-264 | transposing by a permutation keeps size = product(shape) |
| `TensorLaws.TransposeRoundTrip` | src/data/tensor.cc:255-258 | transposing by the inverse permutation restores the original tensor |
| `TensorLaws.TransposeAddressing` | src/data/tensor.cc:255-264 | element [indices] of a transpose is the element of the source at the inversely permuted multi-index |
| `TensorLaws.COrderInBounds` | src/data/tensor.cc:150-158 | every in-range full multi-index of a valid C-order tensor addresses within [0, size) |
| `TensorLaws.TransposeInBounds` | src/data/tensor.cc:245-267 | transposing by a permutation keeps every in-range multi-index within [0, size), though the strides are no longer C-order |
| `TensorLaws.GetAtInRange` | src/data/tensor.cc:155-158 | multi-index access never fails on an in-range multi-index of a tensor that addresses within bounds |
| `TensorLaws.GetAtPrefixInRange` | src/data/tensor.cc:162-170 | on a C-order tensor with at least one element, in-range indices over a prefix of the axes always succeed, whatever the signs of the extents |
| `TensorScenarios.ZeroedTensor` | tests/test_tensor.cc:20-35 | shape [1,2,3] gives size 6, strides [6,3,1] and six zeros |
| `TensorScenarios.ValuesTensor` | tests/test_tensor.cc:135-154 | over values 1..6 in shape [1,2,3], linear [3] is 4, linear [2] is 3, and [0,1,2] is 6 |
| `TensorScenarios.PointerTensor` | tests/test_tensor.cc:37-53 | the pointer form copies the six values into a size-6 tensor |
| `TensorScenarios.ConstructionFailures` | src/data/tensor.cc:52-81 | an empty shape, empty data and a null pointer each fail with invalid-argument |
| `TensorScenarios.DataCheckedBeforeSize` | src/data/tensor.cc:11-81 | a null buffer, a null pointer or empty data fails with its own message even for shape [-1], which could never be laid out: the data check precedes any size computation |
| `TensorScenarios.CopyAndMove` | tests/test_tensor.cc:73-133 | a copy holds the same buffer; a move hands over the buffer and leaves the source empty |
| `TensorScenarios.ReshapeScenario` | tests/test_tensor.cc:156-164 | reshape to [2,3,1] reads 6 at [1,2,0] |
| `TensorScenarios.TransposeScenario` | tests/test_tensor.cc:176-184 | transpose by [1,0,2] gives shape [2,1,3], strides [3,6,1], and reads 5 at [1,0,1], the element at [0,1,1] of the source |
| `TensorScenarios.PerAxisNotChecked` | src/data/tensor.cc:150-158 | on a 2x3 tensor, [0,4] is out of range on the last axis yet reads flat index 4 |
| `TensorScenarios.NegativeExtents` | src/data/tensor.cc:73-92 | extents are not checked one by one: shape [-2,-3] builds a 6-element tensor with strides [-3,1], where [-1,0] reads linear position 3 |

## Left out

- `print`, `squeeze`, `unsqueeze`, `view`, `expand`, `clone`, `contiguous`, the
  three `to(...)` overloads and `transform`: declared in
  `include/data/tensor.h` but not defined in `src/data/tensor.cc`, so no
  behaviour of theirs is part of this model. The `view` test
  (tests/test_tensor.cc:166-174) is left out with them.
- The two-argument `transpose(axis1, axis2)` is declared but not defined. The
  test that calls it is modelled with the equivalent axes vector `[1, 0, 2]`.
  Conversely, `include/data/tensor.h` does not declare the axes-vector
  `transpose` that `src/data/tensor.cc` defines: the modelled operation is
  that definition, not a declared interface.
- Logging, the test framework, and the explicit template instantiations for
  six element types: the element type is a type parameter.
- Reference-count lifetime and destruction of buffers: the model only tells
  a shared buffer from a new one. Buffers are never freed from the heap.
- `Tensors.NewZeroed`: the element count is an unbounded integer under the precondition
  `ProductFits` (every partial product fits the `int` accumulator of
  `std::accumulate`). The `int` truncation of larger products is not modelled.
  Individual extents may be negative, as in tensor.cc, as long as their
  product is not: shape [-2, -3] builds a tensor of 6 elements with strides
  [-3, 1] (`TensorScenarios.NegativeExtents`). A negative product is excluded:
  it wraps to a huge `size_t` and `new T[size_]` fails. The precondition
  `StridesFit` also excludes shapes whose strides (the products of the
  extents after each axis) overflow `int64_t` in the stride loop, which is
  undefined behaviour in tensor.cc. These bounds apply only once the shape is
  non-empty and the data check has passed, the only path on which tensor.cc
  computes a size or a stride; the error paths hold for every shape
  (`TensorScenarios.DataCheckedBeforeSize`).
- `Tensors.NewFromPointer`: same bounds as `NewZeroed`. The pointer must address at least
  product(shape) elements, because reading past them is undefined behaviour.
- `Tensors.NewFromValues`: same bounds as `NewZeroed`. A non-empty vector must hold
  exactly product(shape) values. Any other length overruns the buffer or
  leaves elements uninitialised.
- `Tensors.NewShared`: same bounds as `NewZeroed`. Here a negative product does not
  fail in tensor.cc; it leaves `size_` as a huge `size_t` over a buffer that
  cannot hold it, and the model excludes it. The buffer length is not
  checked, here or in tensor.cc.
- `Tensors.Reshape`: the new shape's products are unbounded integers under `ProductFits`.
  `int64_t` overflow of the stride products is not modelled. The new shape
  may hold negative extents whose product matches, as tensor.cc allows.
- `Tensors.GetAt`: the offset is an unbounded integer. `int64_t` wrap-around of a
  huge index sum is not modelled. The multi-index may not be longer than the
  stride vector (`|indices| <= |t.strides|`). tensor.cc does not check this,
  and a longer one reads past the end of `strides_`, which is undefined
  behaviour. `SetAt` and `AtIndices` have the same bounds.
- `Tensors.Get`: the buffer must hold at least `size` elements (`Backed`). This
  holds for every tensor built here. A shorter buffer is undefined
  behaviour in tensor.cc.
- `Tensors.Transpose`: the entries of `axes` must lie in [0, rank) when the
  rank matches. tensor.cc does not check them and indexes out of bounds
  otherwise. Axes that are in range but repeat are accepted, as in
  tensor.cc. Such a result may break `Valid`, which is why the transpose laws
  assume a permutation.

=== FILE: buffers.dfy ===
/** The shared element buffers. A buffer is named by its BufferId; every
    tensor that holds the same id aliases the same storage, as holders of one
    shared_ptr do. Allocation appends a buffer, so a new id is never one that
    an existing tensor holds. */
module Buffers {

  type BufferId = nat

  /** All live buffers, indexed by their id. */
  type Heap<T> = seq<seq<T>>

  /** A fresh buffer holding `cells`; the existing buffers are untouched. */
  function Alloc<T>(heap: Heap<T>, cells: seq<T>): (r: (Heap<T>, BufferId))
  {
    (heap + [cells], |heap|)
  }

  /** `after` is `before` with exactly one more buffer. */
  ghost predicate Extends<T>(before: Heap<T>, after: Heap<T>)
  {
    |after| == |before| + 1 && after[..|before|] == before
  }

  /** `after` is `before` with cell `index` of buffer `id` replaced by v,
      and every other cell of every buffer kept. */
  ghost predicate StoredAt<T>(before: Heap<T>, after: Heap<T>, id: BufferId, index: int, v: T)
  {
    && |after| == |before|
    && (forall b :: 0 <= b < |before| ==> |after[b]| == |before[b]|)
    && (forall b, i :: 0 <= b < |before| && 0 <= i < |before[b]| ==>
          after[b][i] == if b == id && i == index then v else before[b][i])
  }

  function Write<T>(heap: Heap<T>, id: BufferId, index: int, v: T): (r: Heap<T>)
    requires id < |heap| && 0 <= index < |heap[id]|
    ensures StoredAt(heap, r, id, index, v)
  {
    heap[id := heap[id][index := v]]
  }
}

=== FILE: layout.dfy ===
/** Shape, stride and offset arithmetic of a strided tensor
    (src/data/tensor.cc: the stride loop repeated in every constructor and in
    reshape, and the offset loop of multi-index access). */
module Layout {
  import opened Sequences

  /** Range of the C `int` accumulator that std::accumulate(..., 1, ...) uses. */
  const IntMin: int := -0x8000_0000
  const IntMax: int := 0x7fff_ffff

  /** Every extent is non-negative. */
  predicate NonNegative(shape: seq<int>)
  {
    forall i :: 0 <= i < |shape| ==> 0 <= shape[i]
  }

  /** Every partial product of the left-to-right fold fits the `int`
      accumulator, so the computed element count is the true product. */
  predicate ProductFits(shape: seq<int>)
  {
    forall k :: 0 <= k <= |shape| ==> IntMin <= Product(shape[..k]) <= IntMax
  }

  /** When no extent is 0, every partial product is bounded by the whole
      product, so a shape whose element count fits an `int` fits throughout. */
  lemma PositiveShapeFits(shape: seq<int>)
    requires forall i :: 0 <= i < |shape| ==> 1 <= shape[i]
    requires Product(shape) <= IntMax
    ensures ProductFits(shape)
  {
    forall k | 0 <= k <= |shape|
      ensures IntMin <= Product(shape[..k]) <= IntMax
    {
      assert shape == shape[..k] + shape[k..];
      ProductConcat(shape[..k], shape[k..]);
      ProductPositive(shape[..k]);
      ProductPositive(shape[k..]);
      NonnegMul(Product(shape[..k]), Product(shape[k..]) - 1);
    }
  }

  /** Range of the `int64_t` the stride loop multiplies in. */
  const Int64Min: int := -0x8000_0000_0000_0000
  const Int64Max: int := 0x7fff_ffff_ffff_ffff

  /** Every stride the C-order loop computes, the product of the extents after
      an axis, fits `int64_t`, so no multiplication of the loop overflows. */
  predicate StridesFit(shape: seq<int>)
  {
    forall i :: 1 <= i <= |shape| ==> Int64Min <= Product(shape[i..]) <= Int64Max
  }

  /** The C-order stride law: the last axis has stride 1 and every other
      axis steps over one whole slice of the axis after it. */
  predicate IsCOrder(shape: seq<int>, strides: seq<int>)
  {
    && |strides| == |shape|
    && (|shape| > 0 ==> strides[|shape| - 1] == 1)
    && (forall i :: 0 <= i < |shape| - 1 ==> strides[i] == shape[i + 1] * strides[i + 1])
  }

  /** Reference definition of C-order strides: the stride of axis i is the
      number of elements in one slice of the axes after i. */
  function CStrides(shape: seq<int>): (strides: seq<int>)
    ensures IsCOrder(shape, strides)
  {
    if |shape| == 0 then [] else [Product(shape[1..])] + CStrides(shape[1..])
  }

  /** The stride loop of the constructors and of reshape, run from the
      second-to-last axis down to axis 0. */
  method ComputeStrides(shape: seq<int>) returns (strides: seq<int>)
    requires |shape| > 0
    ensures IsCOrder(shape, strides)
  {
    var n := |shape|;
    strides := seq(n, i => 0);
    strides := strides[n - 1 := 1];
    var i := n - 2;
    while i >= 0
      invariant -1 <= i <= n - 2
      invariant |strides| == n
      invariant strides[n - 1] == 1
      invariant forall j :: i < j < n - 1 ==> strides[j] == shape[j + 1] * strides[j + 1]
    {
      strides := strides[i := shape[i + 1] * strides[i + 1]];
      i := i - 1;
    }
  }

  /** The stride law has exactly one solution for a given shape. */
  lemma {:induction false} COrderUnique(shape: seq<int>, strides: seq<int>)
    requires IsCOrder(shape, strides)
    ensures strides == CStrides(shape)
    decreases |shape|
  {
    if |shape| > 1 {
      assert IsCOrder(shape[1..], strides[1..]);
      COrderUnique(shape[1..], strides[1..]);
      var cs := CStrides(shape);
      assert cs[1..] == CStrides(shape[1..]);
      assert strides[0] == cs[0];
      assert strides == [strides[0]] + strides[1..];
    } else if |shape| == 1 {
      assert shape[1..] == [];
    }
  }

  /** Flattened offset of a (possibly partial) multi-index: the dot product
      of the supplied indices with the leading strides. */
  function Offset(indices: seq<int>, strides: seq<int>): (r: int)
    requires |indices| <= |strides|
  {
    if |indices| == 0 then 0 else indices[0] * strides[0] + Offset(indices[1..], strides[1..])
  }

  lemma {:induction false} OffsetAppend(indices: seq<int>, x: int, strides: seq<int>)
    requires |indices| < |strides|
    ensures Offset(indices + [x], strides) == Offset(indices, strides) + x * strides[|indices|]
    decreases |indices|
  {
    if |indices| > 0 {
      assert (indices + [x])[1..] == indices[1..] + [x];
      OffsetAppend(indices[1..], x, strides[1..]);
    }
  }

  /** The offset loop of multi-index access, accumulated front to back. */
  method ComputeOffset(indices: seq<int>, strides: seq<int>) returns (index: int)
    requires |indices| <= |strides|
    ensures index == Offset(indices, strides)
  {
    index := 0;
    var i := 0;
    while i < |indices|
      invariant 0 <= i <= |indices|
      invariant index == Offset(indices[..i], strides)
    {
      assert indices[..i + 1] == indices[..i] + [indices[i]];
      OffsetAppend(indices[..i], indices[i], strides);
      index := index + indices[i] * strides[i];
      i := i + 1;
    }
    assert indices[..i] == indices;
  }

  /** Each supplied index lies within its axis. A prefix of the axes may be
      indexed. */
  predicate InRange(shape: seq<int>, indices: seq<int>)
  {
    |indices| <= |shape| && forall i :: 0 <= i < |indices| ==> 0 <= indices[i] < shape[i]
  }

  lemma MulStep(x: int, n: int, p: int, rest: int)
    requires 0 <= x < n && 0 < p && 0 <= rest < p
    ensures 0 <= x * p + rest < n * p
  {
    assert x * p <= (n - 1) * p;
  }

  lemma PositiveFactor(a: int, b: int)
    requires 0 <= a && 0 < a * b
    ensures 0 < b
  {
  }

  /** Under C-order strides, in-range indices (over any prefix of the axes)
      address an element of a non-empty tensor. */
  lemma {:induction false} OffsetBound(shape: seq<int>, indices: seq<int>)
    requires InRange(shape, indices)
    requires 0 < Product(shape)
    ensures 0 <= Offset(indices, CStrides(shape)) < Product(shape)
    decreases |shape|
  {
    if |indices| > 0 {
      var tail := shape[1..];
      var p := Product(tail);
      PositiveFactor(shape[0], p);
      OffsetBound(tail, indices[1..]);
      assert CStrides(shape)[1..] == CStrides(tail);
      MulStep(indices[0], shape[0], p, Offset(indices[1..], CStrides(tail)));
    }
  }

  /** A full multi-index in range on every axis always addresses an element:
      its axes are all non-empty, so the shape has a positive product. */
  lemma OffsetBoundFull(shape: seq<int>, indices: seq<int>)
    requires InRange(shape, indices) && |indices| == |shape|
    ensures 0 < Product(shape)
    ensures 0 <= Offset(indices, CStrides(shape)) < Product(shape)
  {
    ProductPositive(shape);
    OffsetBound(shape, indices);
  }

  /** The multi-index that a C-order offset addresses. */
  function Unravel(shape: seq<int>, offset: int): (indices: seq<int>)
    requires NonNegative(shape) && 0 <= offset < Product(shape)
    ensures |indices| == |shape| && InRange(shape, indices)
    ensures Offset(indices, CStrides(shape)) == offset
  {
    if |shape| == 0 then []
    else
      var p := Product(shape[1..]);
      PositiveFactor(shape[0], p);
      DivBelow(offset, shape[0], p);
      var rest := Unravel(shape[1..], offset % p);
      assert CStrides(shape)[1..] == CStrides(shape[1..]);
      [offset / p] + rest
  }

  lemma DivBelow(offset: int, n: int, p: int)
    requires 0 < p && 0 <= offset < n * p
    ensures 0 <= offset / p < n
    ensures offset == (offset / p) * p + offset % p
  {
  }

  lemma DivUnique(x: int, p: int, rest: int)
    requires 0 <= x && 0 < p && 0 <= rest < p
    ensures (x * p + rest) / p == x && (x * p + rest) % p == rest
  {
    var o := x * p + rest;
    var q, r := o / p, o % p;
    assert o == q * p + r;
    var d := q - x;
    assert d * p == rest - r;
    NonnegMul(d - 1, p);
    NonnegMul(-d - 1, p);
    assert (d - 1) * p == d * p - p;
    assert (-d - 1) * p == -(d * p) - p;
  }

  lemma NonnegMul(a: int, b: int)
    ensures 0 <= a && 0 <= b ==> 0 <= a * b
  {
  }

  /** C-order addressing is a bijection: unravelling the offset of an
      in-range multi-index gives that multi-index back. */
  lemma {:induction false} UnravelOffset(shape: seq<int>, indices: seq<int>)
    requires InRange(shape, indices) && |indices| == |shape|
    ensures NonNegative(shape)
    ensures 0 <= Offset(indices, CStrides(shape)) < Product(shape)
    ensures Unravel(shape, Offset(indices, CStrides(shape))) == indices
    decreases |shape|
  {
    OffsetBoundFull(shape, indices);
    if |shape| > 0 {
      var tail := shape[1..];
      var p := Product(tail);
      var o := Offset(indices, CStrides(shape));
      UnravelOffset(tail, indices[1..]);
      assert CStrides(shape)[1..] == CStrides(tail);
      var rest := Offset(indices[1..], CStrides(tail));
      assert o == indices[0] * p + rest;
      DivUnique(indices[0], p, rest);
      assert indices == [indices[0]] + indices[1..];
    }
  }

  /** The per-axis products whose sum is the offset. */
  function Terms(indices: seq<int>, strides: seq<int>): (r: seq<int>)
    requires |indices| <= |strides|
  {
    seq(|indices|, i requires 0 <= i < |indices| => indices[i] * strides[i])
  }

  lemma {:induction false} OffsetIsSum(indices: seq<int>, strides: seq<int>)
    requires |indices| <= |strides|
    ensures Offset(indices, strides) == Sum(Terms(indices, strides))
    decreases |indices|
  {
    if |indices| > 0 {
      assert Terms(indices, strides)[1..] == Terms(indices[1..], strides[1..]);
      OffsetIsSum(indices[1..], strides[1..]);
    }
  }

  /** Addressing through permuted strides: index `indices` under the strides
      reordered by `axes` reaches the same offset as the un-permuted
      multi-index (entry axes[i] of which is indices[i]) under the original
      strides. */
  lemma PermutedOffset(strides: seq<int>, axes: seq<int>, indices: seq<int>)
    requires IsPermutation(axes) && |strides| == |axes| && |indices| == |axes|
    ensures Offset(indices, Permute(strides, axes)) == Offset(Permute(indices, Inverse(axes)), strides)
  {
    var src := Permute(indices, Inverse(axes));
    OffsetIsSum(indices, Permute(strides, axes));
    OffsetIsSum(src, strides);
    assert Terms(indices, Permute(strides, axes)) == Permute(Terms(src, strides), axes);
    SumPermute(Terms(src, strides), axes);
  }
}

=== FILE: scenarios.dfy ===
/** The concrete scenarios of tests/test_tensor.cc, stated over the model.
    Elements are integers; every scenario starts from an empty heap. */
module TensorScenarios {
  import opened Wrappers
  import opened Sequences
  import opened Layout
  import opened Buffers
  import opened Tensors

  const Empty: Heap<int> := []
  const Shape123: seq<int> := [1, 2, 3]
  const OneToSix: seq<int> := [1, 2, 3, 4, 5, 6]

  lemma Shape123Fits()
    ensures Constructible(Shape123) && Product(Shape123) == 6
    ensures CStrides(Shape123) == [6, 3, 1]
  {
    assert Shape123[1..] == [2, 3] && Shape123[1..][1..] == [3];
    PositiveShapeFits(Shape123);
  }

  lemma Shape231Fits()
    ensures ProductFits([2, 3, 1]) && Product([2, 3, 1]) == 6
    ensures CStrides([2, 3, 1]) == [3, 1, 1]
  {
    var s: seq<int> := [2, 3, 1];
    assert s[1..] == [3, 1] && s[1..][1..] == [1];
    PositiveShapeFits(s);
  }

  lemma Shape23Fits()
    ensures Constructible([2, 3]) && Product([2, 3]) == 6
    ensures CStrides([2, 3]) == [3, 1]
  {
    var s: seq<int> := [2, 3];
    assert s[1..] == [3];
    PositiveShapeFits(s);
  }

  /** Tensor({1, 2, 3}): six zeroed elements, C-order strides [6, 3, 1]. */
  lemma ZeroedTensor()
    ensures Constructible(Shape123)
    ensures NewZeroed(Empty, Shape123, 0).Ok?
    ensures var (heap, t) := NewZeroed(Empty, Shape123, 0).value;
      t.size == 6 && t.strides == [6, 3, 1] && t.data.Some? && heap[t.data.value] == [0, 0, 0, 0, 0, 0]
  {
    Shape123Fits();
  }

  /** Tensor({1, 2, 3}, data) from a vector: linear [3] is 4, linear [2] is 3,
      and [0, 1, 2] is 6. */
  lemma ValuesTensor()
    ensures Constructible(Shape123) && Product(Shape123) == 6
    ensures NewFromValues(Empty, Shape123, OneToSix).Ok?
    ensures var (heap, t) := NewFromValues(Empty, Shape123, OneToSix).value;
      && t.size == 6 && |t.shape| == 3 && |t.strides| == 3 && t.data.Some?
      && Get(heap, t, 3) == Ok(4)
      && Get(heap, t, 2) == Ok(3)
      && GetAt(heap, t, [0, 1, 2]) == Ok(6)
  {
    Shape123Fits();
    var (heap, t) := NewFromValues(Empty, Shape123, OneToSix).value;
    assert Offset([0, 1, 2], t.strides) == 5;
  }

  /** Tensor({1, 2, 3}, data) from a pointer copies the six elements. */
  lemma PointerTensor()
    ensures Constructible(Shape123) && Product(Shape123) == 6
    ensures NewFromPointer(Empty, Shape123, Some(OneToSix)).Ok?
    ensures var (heap, t) := NewFromPointer(Empty, Shape123, Some(OneToSix)).value;
      t.size == 6 && t.data.Some? && heap[t.data.value] == OneToSix
  {
    Shape123Fits();
  }

  /** The three construction failures, each an invalid argument. */
  lemma ConstructionFailures()
    ensures Constructible(Shape123)
    ensures NewFromValues(Empty, [], OneToSix) == Err(InvalidArgument(EmptyShape))
    ensures NewFromValues(Empty, Shape123, []) == Err(InvalidArgument(EmptyData))
    ensures NewFromPointer(Empty, Shape123, None) == Err(InvalidArgument(NullData))
  {
    Shape123Fits();
  }

  /** Copying shares the buffer; moving empties the source. */
  lemma CopyAndMove()
    ensures Constructible(Shape123)
    ensures NewZeroed(Empty, Shape123, 0).Ok?
    ensures var (_, t) := NewZeroed(Empty, Shape123, 0).value;
      && CopyOf(t).data == t.data && CopyOf(t).size == t.size
      && CopyOf(t).shape == t.shape && CopyOf(t).strides == t.strides
      && MoveOf(t).0.data == t.data && MoveOf(t).0.size == 6
      && MoveOf(t).1.size == 0 && MoveOf(t).1.shape == [] && MoveOf(t).1.strides == []
      && MoveOf(t).1.data.None?
  {
    Shape123Fits();
  }

  /** A missing pointer, buffer or vector is rejected before any size is
      computed, so a shape that could never be laid out still gets the
      data error. */
  lemma DataCheckedBeforeSize()
    ensures !Constructible([-1])
    ensures NewFromPointer(Empty, [-1], None) == Err(InvalidArgument(NullData))
    ensures NewFromValues(Empty, [-1], []) == Err(InvalidArgument(EmptyData))
    ensures NewShared([-1], None) == Err(InvalidArgument(NullData))
  {
  }

  /** reshape({2, 3, 1}): element [1, 2, 0] is flat index 5, value 6. */
  lemma ReshapeScenario()
    ensures Constructible(Shape123) && Product(Shape123) == 6 && ProductFits([2, 3, 1])
    ensures NewFromValues(Empty, Shape123, OneToSix).Ok?
    ensures var (heap, t) := NewFromValues(Empty, Shape123, OneToSix).value;
      Reshape(t, [2, 3, 1]).Ok? && GetAt(heap, Reshape(t, [2, 3, 1]).value, [1, 2, 0]) == Ok(6)
  {
    Shape123Fits();
    Shape231Fits();
    assert Offset([1, 2, 0], [3, 1, 1]) == 5;
  }

  /** transpose({1, 0, 2}) (the axes-vector form of swapping axes 0 and 1):
      shape [2, 1, 3], strides [3, 6, 1], and element [1, 0, 1] is
      element [0, 1, 1] of the source, the value 5 at offset 4. */
  lemma TransposeScenario()
    ensures Constructible(Shape123) && Product(Shape123) == 6
    ensures NewFromValues(Empty, Shape123, OneToSix).Ok?
    ensures var (heap, t) := NewFromValues(Empty, Shape123, OneToSix).value;
      && Transpose(t, [1, 0, 2]).Ok?
      && Transpose(t, [1, 0, 2]).value.shape == [2, 1, 3]
      && Transpose(t, [1, 0, 2]).value.strides == [3, 6, 1]
      && GetAt(heap, Transpose(t, [1, 0, 2]).value, [1, 0, 1]) == Ok(5)
      && GetAt(heap, t, [0, 1, 1]) == Ok(5)
  {
    Shape123Fits();
    assert Offset([1, 0, 1], [3, 6, 1]) == 4;
    assert Offset([0, 1, 1], [6, 3, 1]) == 4;
  }

  /** Only the flattened offset is checked: on a 2x3 tensor, [0, 4] is out of
      range on the last axis yet reads flat index 4. */
  lemma PerAxisNotChecked()
    ensures Constructible([2, 3]) && Product([2, 3]) == 6
    ensures NewFromValues(Empty, [2, 3], OneToSix).Ok?
    ensures var (heap, t) := NewFromValues(Empty, [2, 3], OneToSix).value;
      !InRange(t.shape, [0, 4]) && GetAt(heap, t, [0, 4]) == Ok(5)
  {
    Shape23Fits();
    assert Offset([0, 4], [3, 1]) == 4;
  }

  /** Extents are not checked one by one: shape [-2, -3] has element count 6
      and strides [-3, 1], so [-1, 0] addresses linear position 3. */
  lemma NegativeExtents()
    ensures Constructible([-2, -3]) && Product([-2, -3]) == 6
    ensures NewFromValues(Empty, [-2, -3], OneToSix).Ok?
    ensures var (heap, t) := NewFromValues(Empty, [-2, -3], OneToSix).value;
      && t.size == 6 && t.strides == [-3, 1] && t.data.Some?
      && GetAt(heap, t, [-1, 0]) == Ok(4)
  {
    var s: seq<int> := [-2, -3];
    assert s[1..] == [-3] && s[..0] == [] && s[..1] == [-2] && s[..2] == s && s[2..] == [];
  }
}

=== FILE: sequences.dfy ===
/** Integer folds over sequences and permutations of axis positions.
    These are the arithmetic building blocks of the layout model: the element
    count of a shape is a Product, a flattened offset is a Sum, and transpose
    reorders both through a permutation of axis positions. */
module Sequences {

  /** Sum of the entries; 0 for the empty sequence. */
  function Sum(s: seq<int>): (r: int)
  {
    if |s| == 0 then 0 else s[0] + Sum(s[1..])
  }

  /** Product of the entries; 1 for the empty sequence. */
  function Product(s: seq<int>): (r: int)
  {
    if |s| == 0 then 1 else s[0] * Product(s[1..])
  }

  lemma {:induction false} SumConcat(a: seq<int>, b: seq<int>)
    ensures Sum(a + b) == Sum(a) + Sum(b)
  {
    if |a| == 0 {
      assert a + b == b;
    } else {
      assert (a + b)[1..] == a[1..] + b;
      SumConcat(a[1..], b);
    }
  }

  lemma {:induction false} ProductConcat(a: seq<int>, b: seq<int>)
    ensures Product(a + b) == Product(a) * Product(b)
  {
    if |a| == 0 {
      assert a + b == b;
    } else {
      assert (a + b)[1..] == a[1..] + b;
      ProductConcat(a[1..], b);
      calc {
        Product(a + b);
        a[0] * Product(a[1..] + b);
        a[0] * (Product(a[1..]) * Product(b));
        { MulAssoc(a[0], Product(a[1..]), Product(b)); }
        (a[0] * Product(a[1..])) * Product(b);
      }
    }
  }

  lemma MulAssoc(x: int, y: int, z: int)
    ensures x * (y * z) == (x * y) * z
  {
  }

  /** The product of a shape is positive when every extent is. */
  lemma {:induction false} ProductPositive(s: seq<int>)
    requires forall i :: 0 <= i < |s| ==> 0 < s[i]
    ensures 0 < Product(s)
  {
    if |s| > 0 {
      ProductPositive(s[1..]);
      MulPositive(s[0], Product(s[1..]));
    }
  }

  lemma MulPositive(x: int, y: int)
    requires 0 < x && 0 < y
    ensures 0 < x * y
  {
  }

  /** `axes` lists every position 0..|axes|-1 exactly once. */
  predicate IsPermutation(axes: seq<int>)
  {
    && (forall i :: 0 <= i < |axes| ==> 0 <= axes[i] < |axes|)
    && (forall i, j :: 0 <= i < j < |axes| ==> axes[i] != axes[j])
    && (forall v :: 0 <= v < |axes| ==> v in axes)
  }

  /** Entry i of the result is entry axes[i] of s. */
  function Permute<T>(s: seq<T>, axes: seq<int>): (r: seq<T>)
    requires forall i :: 0 <= i < |axes| ==> 0 <= axes[i] < |s|
  {
    seq(|axes|, i requires 0 <= i < |axes| => s[axes[i]])
  }

  /** Position of the first occurrence of v. */
  function IndexOf(axes: seq<int>, v: int): (k: nat)
    requires v in axes
    ensures k < |axes| && axes[k] == v
    ensures forall j :: 0 <= j < k ==> axes[j] != v
  {
    if axes[0] == v then 0 else 1 + IndexOf(axes[1..], v)
  }

  /** The permutation that undoes `axes`. */
  function Inverse(axes: seq<int>): (inv: seq<int>)
    requires IsPermutation(axes)
    ensures |inv| == |axes|
    ensures IsPermutation(inv)
    ensures forall i :: 0 <= i < |axes| ==> inv[axes[i]] == i
    ensures forall j :: 0 <= j < |axes| ==> axes[inv[j]] == j
  {
    var inv := seq(|axes|, j requires 0 <= j < |axes| => IndexOf(axes, j));
    assert forall i :: 0 <= i < |axes| ==> inv[axes[i]] == i by {
      forall i | 0 <= i < |axes|
        ensures inv[axes[i]] == i
      {
        DistinctPositions(axes, IndexOf(axes, axes[i]), i);
      }
    }
    assert forall v :: 0 <= v < |inv| ==> v in inv by {
      forall v | 0 <= v < |inv|
        ensures v in inv
      {
        assert inv[axes[v]] == v;
      }
    }
    inv
  }

  lemma DistinctPositions(axes: seq<int>, a: int, b: int)
    requires IsPermutation(axes)
    requires 0 <= a < |axes| && 0 <= b < |axes| && axes[a] == axes[b]
    ensures a == b
  {
  }

  /** Dropping the position that holds the largest axis leaves a permutation
      of the remaining axes. */
  lemma DropLargest(axes: seq<int>, k: nat)
    requires IsPermutation(axes) && |axes| > 0
    requires k < |axes| && axes[k] == |axes| - 1
    ensures IsPermutation(axes[..k] + axes[k + 1..])
  {
    var n := |axes|;
    var rest := axes[..k] + axes[k + 1..];
    assert |rest| == n - 1;
    assert forall i :: 0 <= i < n - 1 ==> rest[i] == if i < k then axes[i] else axes[i + 1];
    forall i | 0 <= i < n - 1
      ensures 0 <= rest[i] < n - 1
    {
      if i < k {
        assert axes[i] != axes[k];
      } else {
        assert axes[k] != axes[i + 1];
      }
    }
    forall i, j | 0 <= i < j < n - 1
      ensures rest[i] != rest[j]
    {
      var a := if i < k then i else i + 1;
      var b := if j < k then j else j + 1;
      assert a < b;
      assert axes[a] != axes[b];
    }
    forall v | 0 <= v < n - 1
      ensures v in rest
    {
      assert v in axes;
      var m := IndexOf(axes, v);
      if m < k {
        assert rest[m] == v;
      } else {
        assert m != k;
        assert rest[m - 1] == v;
      }
    }
  }

  /** Removing the position that holds the largest axis from a permuted
      sequence is permuting the sequence without its last entry. */
  lemma PermuteDropLargest(s: seq<int>, axes: seq<int>, k: nat)
    requires IsPermutation(axes) && |axes| == |s| && |axes| > 0
    requires k < |axes| && axes[k] == |axes| - 1
    ensures IsPermutation(axes[..k] + axes[k + 1..])
    ensures Permute(s[..|s| - 1], axes[..k] + axes[k + 1..]) == Permute(s, axes)[..k] + Permute(s, axes)[k + 1..]
  {
    DropLargest(axes, k);
  }

  /** Reordering the entries of a sequence does not change their sum. */
  lemma {:induction false} SumPermute(s: seq<int>, axes: seq<int>)
    requires IsPermutation(axes) && |axes| == |s|
    ensures Sum(Permute(s, axes)) == Sum(s)
    decreases |s|
  {
    if |s| > 0 {
      var n := |s|;
      var k := IndexOf(axes, n - 1);
      var rest := axes[..k] + axes[k + 1..];
      var p := Permute(s, axes);
      PermuteDropLargest(s, axes, k);
      SumRemove(p, k);
      SumPermute(s[..n - 1], rest);
      SumRemove(s, n - 1);
      assert s[..n - 1] + s[n..] == s[..n - 1];
    }
  }

  lemma SumRemove(p: seq<int>, k: nat)
    requires k < |p|
    ensures Sum(p) == Sum(p[..k] + p[k + 1..]) + p[k]
  {
    assert p == p[..k] + p[k..];
    assert p[k..][1..] == p[k + 1..];
    SumConcat(p[..k], p[k..]);
    SumConcat(p[..k], p[k + 1..]);
  }

  /** Reordering the entries of a sequence does not change their product. */
  lemma {:induction false} ProductPermute(s: seq<int>, axes: seq<int>)
    requires IsPermutation(axes) && |axes| == |s|
    ensures Product(Permute(s, axes)) == Product(s)
    decreases |s|
  {
    if |s| > 0 {
      var n := |s|;
      var k := IndexOf(axes, n - 1);
      var rest := axes[..k] + axes[k + 1..];
      var p := Permute(s, axes);
      PermuteDropLargest(s, axes, k);
      ProductRemove(p, k);
      ProductPermute(s[..n - 1], rest);
      ProductRemove(s, n - 1);
      assert s[..n - 1] + s[n..] == s[..n - 1];
    }
  }

  lemma ProductRemove(p: seq<int>, k: nat)
    requires k < |p|
    ensures Product(p) == Product(p[..k] + p[k + 1..]) * p[k]
  {
    assert p == p[..k] + p[k..];
    assert p[k..][1..] == p[k + 1..];
    ProductConcat(p[..k], p[k..]);
    ProductConcat(p[..k], p[k + 1..]);
    MulSwap(Product(p[..k]), p[k], Product(p[k + 1..]));
  }

  lemma MulSwap(a: int, c: int, b: int)
    ensures a * (c * b) == (a * b) * c
  {
  }
}

=== FILE: tensor.dfy ===
/** The tensor of src/data/tensor.cc: an element count, a shape, a stride per
    axis and a handle on a shared buffer. Element types only appear in the
    buffers, so the tensor value itself is not generic. */
module Tensors {
  import opened Wrappers
  import opened Sequences
  import opened Layout
  import opened Buffers

  datatype Tensor = Tensor(size: nat, shape: seq<int>, strides: seq<int>, data: Option<BufferId>)

  /** The default tensor: no elements, no axes, no buffer. */
  const Default: Tensor := Tensor(0, [], [], None)

  /** The invariant every tensor built by this module keeps: one stride per
      axis, only the default tensor has no axes, and otherwise the element
      count is the product of the extents. */
  predicate Valid(t: Tensor)
  {
    && |t.strides| == |t.shape|
    && (t.shape == [] ==> t == Default)
    && (t.shape != [] ==> t.size == Product(t.shape))
  }

  /** The tensor's buffer, if any, is live, and every linear index below
      `size` lies inside it. */
  predicate Backed<T>(heap: Heap<T>, t: Tensor)
  {
    && (t.data.Some? ==> t.data.value < |heap|)
    && (0 < t.size ==> t.data.Some? && t.size <= |heap[t.data.value]|)
  }

  /** What a constructor needs of its shape: an element count that the `int`
      accumulator holds and that is not negative (a negative count wraps to a
      huge `size_t`), and strides that fit `int64_t`. Individual extents may
      be negative when their product is not. */
  predicate Constructible(shape: seq<int>)
  {
    ProductFits(shape) && 0 <= Product(shape) && StridesFit(shape)
  }

  /** `t` is a freshly laid out C-order tensor of the given shape. */
  predicate LaidOut(t: Tensor, shape: seq<int>)
  {
    t.shape == shape && t.size == Product(shape) && IsCOrder(shape, t.strides)
  }

  /** Shared tail of every data-holding constructor once validation passed. */
  function Make(shape: seq<int>, data: Option<BufferId>): (t: Tensor)
    requires shape != [] && 0 <= Product(shape)
    ensures LaidOut(t, shape) && Valid(t) && t.data == data
  {
    Tensor(Product(shape), shape, CStrides(shape), data)
  }

  // ---------------------------------------------------------------- construction

  /** Tensor(shape): a new zero-filled buffer of product(shape) elements. */
  function NewZeroed<T>(heap: Heap<T>, shape: seq<int>, zero: T): (r: Result<(Heap<T>, Tensor)>)
    requires shape != [] ==> Constructible(shape)
    ensures r.Err? <==> shape == []
    ensures r.Err? ==> r.error == InvalidArgument(EmptyShape)
    ensures r.Ok? ==>
      var (heap', t) := r.value;
      && LaidOut(t, shape) && Valid(t) && Backed(heap', t)
      && t.data == Some(|heap|) && Extends(heap, heap')
      && |heap'[|heap|]| == t.size
      && forall i :: 0 <= i < t.size ==> heap'[|heap|][i] == zero
  {
    if shape == [] then Err(InvalidArgument(EmptyShape))
    else
      var (heap', id) := Alloc(heap, seq(Product(shape), _ => zero));
      Ok((heap', Make(shape, Some(id))))
  }

  /** Tensor(shape, const T* data): copies the first product(shape) elements
      the pointer addresses into a new buffer. `None` is the null pointer;
      reading past the end of the pointed-to elements is undefined in the C++
      implementation, so there must be enough of them. */
  function NewFromPointer<T>(heap: Heap<T>, shape: seq<int>, src: Option<seq<T>>): (r: Result<(Heap<T>, Tensor)>)
    requires shape != [] && src.Some? ==> Constructible(shape)
    requires shape != [] && src.Some? ==> Product(shape) <= |src.value|
    ensures r.Err? <==> shape == [] || src.None?
    ensures shape == [] ==> r == Err(InvalidArgument(EmptyShape))
    ensures shape != [] && src.None? ==> r == Err(InvalidArgument(NullData))
    ensures r.Ok? ==>
      var (heap', t) := r.value;
      && LaidOut(t, shape) && Valid(t) && Backed(heap', t)
      && t.data == Some(|heap|) && Extends(heap, heap')
      && heap'[|heap|] == src.value[..t.size]
  {
    if shape == [] then Err(InvalidArgument(EmptyShape))
    else if src.None? then Err(InvalidArgument(NullData))
    else
      var (heap', id) := Alloc(heap, src.value[..Product(shape)]);
      Ok((heap', Make(shape, Some(id))))
  }

  /** Tensor(shape, const std::vector<T>& data): copies the values into a new
      buffer. Copying more values than the buffer holds is undefined in the
      C++ implementation, so a non-empty vector must match the element count. */
  function NewFromValues<T>(heap: Heap<T>, shape: seq<int>, values: seq<T>): (r: Result<(Heap<T>, Tensor)>)
    requires shape != [] && values != [] ==> Constructible(shape)
    requires shape != [] && values != [] ==> |values| == Product(shape)
    ensures r.Err? <==> shape == [] || values == []
    ensures shape == [] ==> r == Err(InvalidArgument(EmptyShape))
    ensures shape != [] && values == [] ==> r == Err(InvalidArgument(EmptyData))
    ensures r.Ok? ==>
      var (heap', t) := r.value;
      && LaidOut(t, shape) && Valid(t) && Backed(heap', t)
      && t.data == Some(|heap|) && Extends(heap, heap')
      && heap'[|heap|] == values
  {
    if shape == [] then Err(InvalidArgument(EmptyShape))
    else if values == [] then Err(InvalidArgument(EmptyData))
    else
      var (heap', id) := Alloc(heap, values);
      Ok((heap', Make(shape, Some(id))))
  }

  /** The private Tensor(shape, shared_ptr<T> data): a C-order tensor over an
      existing buffer, which it shares rather than copies. */
  function NewShared(shape: seq<int>, data: Option<BufferId>): (r: Result<Tensor>)
    requires shape != [] && data.Some? ==> Constructible(shape)
    ensures r.Err? <==> shape == [] || data.None?
    ensures shape == [] ==> r == Err(InvalidArgument(EmptyShape))
    ensures shape != [] && data.None? ==> r == Err(InvalidArgument(NullData))
    ensures r.Ok? ==> LaidOut(r.value, shape) && Valid(r.value) && r.value.data == data
  {
    if shape == [] then Err(InvalidArgument(EmptyShape))
    else if data.None? then Err(InvalidArgument(NullData))
    else Ok(Make(shape, data))
  }

  // ---------------------------------------------------------------- copy and move

  /** Same element count, shape and strides, over the same buffer. */
  predicate Shares(a: Tensor, b: Tensor)
  {
    a.size == b.size && a.shape == b.shape && a.strides == b.strides && a.data == b.data
  }

  /** The copy constructor: metadata copied, buffer shared. */
  function CopyOf(other: Tensor): (r: Tensor)
    ensures Shares(r, other)
  {
    Tensor(other.size, other.shape, other.strides, other.data)
  }

  /** Copy assignment; `same` says the target is `other` itself,
      which tensor.cc tests for and leaves alone. */
  function CopyAssign(target: Tensor, other: Tensor, same: bool): (r: Tensor)
    requires same ==> target == other
    ensures Shares(r, other)
  {
    if same then target else CopyOf(other)
  }

  /** The move constructor: the new tensor takes all four fields, the source
      is left as the default tensor. Returns (new tensor, source after). */
  function MoveOf(other: Tensor): (r: (Tensor, Tensor))
    ensures Shares(r.0, other)
    ensures r.1.size == 0 && r.1.shape == [] && r.1.strides == [] && r.1.data.None?
  {
    (other, Default)
  }

  /** Move assignment. Returns (target after, source after); a self-move
      leaves the object as it was. */
  function MoveAssign(target: Tensor, other: Tensor, same: bool): (r: (Tensor, Tensor))
    requires same ==> target == other
    ensures Shares(r.0, other)
    ensures same ==> r.1 == other
    ensures !same ==> r.1.size == 0 && r.1.shape == [] && r.1.strides == [] && r.1.data.None?
  {
    if same then (target, other) else MoveOf(other)
  }

  // ---------------------------------------------------------------- element access

  /** Outcome of reading linear position `index` of the buffer: an element
      exactly when 0 <= index < size, out-of-range otherwise. */
  ghost predicate LinearAccess<T>(heap: Heap<T>, t: Tensor, index: int, r: Result<T>)
    requires Backed(heap, t)
  {
    && (r.Ok? <==> 0 <= index < t.size)
    && (r.Ok? ==> r.value == heap[t.data.value][index])
    && (r.Err? ==> r.error == OutOfRange(IndexOutOfRange))
  }

  /** operator[](int64_t), const and non-const alike, read. */
  function Get<T>(heap: Heap<T>, t: Tensor, index: int): (r: Result<T>)
    requires Backed(heap, t)
    ensures LinearAccess(heap, t, index, r)
  {
    if index < 0 || index >= t.size then Err(OutOfRange(IndexOutOfRange))
    else Ok(heap[t.data.value][index])
  }

  /** at(int64_t): forwards to operator[]. */
  function At<T>(heap: Heap<T>, t: Tensor, index: int): (r: Result<T>)
    requires Backed(heap, t)
    ensures LinearAccess(heap, t, index, r)
  {
    Get(heap, t, index)
  }

  /** operator[](indices), read: the flattened offset of the supplied
      indices is checked against [0, size) and nothing else. */
  function GetAt<T>(heap: Heap<T>, t: Tensor, indices: seq<int>): (r: Result<T>)
    requires Backed(heap, t) && |indices| <= |t.strides|
    ensures LinearAccess(heap, t, Offset(indices, t.strides), r)
  {
    var index := Offset(indices, t.strides);
    if index < 0 || index >= t.size then Err(OutOfRange(IndexOutOfRange))
    else Ok(heap[t.data.value][index])
  }

  /** at(indices): forwards to operator[](indices). */
  function AtIndices<T>(heap: Heap<T>, t: Tensor, indices: seq<int>): (r: Result<T>)
    requires Backed(heap, t) && |indices| <= |t.strides|
    ensures LinearAccess(heap, t, Offset(indices, t.strides), r)
  {
    GetAt(heap, t, indices)
  }

  /** Writing through the reference the non-const operator[](int64_t)
      returns: the one cell of the shared buffer changes, in place. */
  function Set<T>(heap: Heap<T>, t: Tensor, index: int, v: T): (r: Result<Heap<T>>)
    requires Backed(heap, t)
    ensures r.Ok? <==> 0 <= index < t.size
    ensures r.Ok? ==> StoredAt(heap, r.value, t.data.value, index, v)
    ensures r.Err? ==> r.error == OutOfRange(IndexOutOfRange)
  {
    if index < 0 || index >= t.size then Err(OutOfRange(IndexOutOfRange))
    else Ok(Write(heap, t.data.value, index, v))
  }

  /** Writing through the reference the non-const operator[](indices)
      returns. */
  function SetAt<T>(heap: Heap<T>, t: Tensor, indices: seq<int>, v: T): (r: Result<Heap<T>>)
    requires Backed(heap, t) && |indices| <= |t.strides|
    ensures r.Ok? <==> 0 <= Offset(indices, t.strides) < t.size
    ensures r.Ok? ==> StoredAt(heap, r.value, t.data.value, Offset(indices, t.strides), v)
    ensures r.Err? ==> r.error == OutOfRange(IndexOutOfRange)
  {
    Set(heap, t, Offset(indices, t.strides), v)
  }

  // ---------------------------------------------------------------- layout transforms

  /** reshape(shape): a C-order view with the new shape over the same buffer.
      The new shape's extents are not checked beyond their product. */
  function Reshape(t: Tensor, shape: seq<int>): (r: Result<Tensor>)
    requires ProductFits(shape)
    ensures r.Err? <==> shape == [] || Product(shape) != t.size
    ensures shape == [] ==> r == Err(InvalidArgument(EmptyShape))
    ensures shape != [] && Product(shape) != t.size ==> r == Err(InvalidArgument(SizeMismatch))
    ensures r.Ok? ==> r.value.size == t.size && r.value.data == t.data
    ensures r.Ok? ==> r.value.shape == shape && IsCOrder(shape, r.value.strides)
  {
    if shape == [] then Err(InvalidArgument(EmptyShape))
    else if Product(shape) != t.size then Err(InvalidArgument(SizeMismatch))
    else Ok(Tensor(t.size, shape, CStrides(shape), t.data))
  }

  /** transpose(axes): axis i of the result is axis axes[i] of the receiver,
      extent and stride together, over the same buffer. The entries of axes
      are not range-checked by tensor.cc, so they must be in range. */
  function Transpose(t: Tensor, axes: seq<int>): (r: Result<Tensor>)
    requires |t.strides| == |t.shape|
    requires |axes| == |t.shape| ==> forall i :: 0 <= i < |axes| ==> 0 <= axes[i] < |t.shape|
    ensures r.Err? <==> axes == [] || |axes| != |t.shape|
    ensures axes == [] ==> r == Err(InvalidArgument(EmptyAxes))
    ensures axes != [] && |axes| != |t.shape| ==> r == Err(InvalidArgument(AxesSizeMismatch))
    ensures r.Ok? ==> r.value.size == t.size && r.value.data == t.data
    ensures r.Ok? ==> |r.value.shape| == |r.value.strides| == |axes|
    ensures r.Ok? ==> forall i :: 0 <= i < |axes| ==>
      r.value.shape[i] == t.shape[axes[i]] && r.value.strides[i] == t.strides[axes[i]]
  {
    if axes == [] then Err(InvalidArgument(EmptyAxes))
    else if |axes| != |t.shape| then Err(InvalidArgument(AxesSizeMismatch))
    else Ok(Tensor(t.size, Permute(t.shape, axes), Permute(t.strides, axes), t.data))
  }
}

=== FILE: tensor_laws.dfy ===
/** Properties relating the tensor operations to each other: buffer sharing
    and independence, what copy and move leave behind, and the layout
    invariants that reshape and transpose keep. */
module TensorLaws {
  import opened Wrappers
  import opened Sequences
  import opened Layout
  import opened Buffers
  import opened Tensors

  /** The default tensor is valid, holds nothing and cannot be transposed. */
  lemma DefaultHoldsNothing<T>(heap: Heap<T>, index: int, axes: seq<int>)
    ensures Valid(Default) && Backed(heap, Default)
    ensures Get(heap, Default, index) == Err(OutOfRange(IndexOutOfRange))
    ensures Transpose(Default, axes).Err?
  {
  }

  /** A new buffer leaves every existing tensor's elements as they were. */
  lemma AllocKeepsElements<T>(heap: Heap<T>, heap': Heap<T>, u: Tensor, index: int)
    requires Extends(heap, heap') && Backed(heap, u)
    ensures Backed(heap', u)
    ensures Get(heap', u, index) == Get(heap, u, index)
  {
  }

  /** A write through one tensor is seen through every tensor that holds the
      same buffer: copies, reshapes and transposes alias their source. */
  lemma WriteVisibleThroughAlias<T>(heap: Heap<T>, a: Tensor, b: Tensor, index: int, v: T)
    requires Backed(heap, a) && Backed(heap, b) && a.data == b.data
    requires 0 <= index < a.size && index < b.size
    ensures Set(heap, a, index, v).Ok?
    ensures Backed(Set(heap, a, index, v).value, b)
    ensures Get(Set(heap, a, index, v).value, b, index) == Ok(v)
  {
  }

  /** A write through one buffer leaves every tensor over another buffer
      unchanged. */
  lemma WriteIsolated<T>(heap: Heap<T>, a: Tensor, u: Tensor, index: int, v: T, j: int)
    requires Backed(heap, a) && Backed(heap, u)
    requires Set(heap, a, index, v).Ok? && u.data != a.data
    ensures Backed(Set(heap, a, index, v).value, u)
    ensures Get(Set(heap, a, index, v).value, u, j) == Get(heap, u, j)
  {
  }

  /** A tensor built from a value sequence owns its buffer: writing to it
      changes nothing that any tensor of the earlier heap can read. */
  lemma ConstructedIsIndependent<T>(heap: Heap<T>, shape: seq<int>, values: seq<T>, u: Tensor, index: int, v: T, j: int)
    requires Constructible(shape)
    requires shape != [] && values != [] ==> |values| == Product(shape)
    requires NewFromValues(heap, shape, values).Ok? && Backed(heap, u)
    ensures var (heap', t) := NewFromValues(heap, shape, values).value;
      Backed(heap', u) && Get(heap', t, index) == (if 0 <= index < |values| then Ok(values[index]) else Err(OutOfRange(IndexOutOfRange)))
    ensures var (heap', t) := NewFromValues(heap, shape, values).value;
      Set(heap', t, index, v).Ok? ==>
        Backed(Set(heap', t, index, v).value, u) && Get(Set(heap', t, index, v).value, u, j) == Get(heap, u, j)
  {
  }

  /** A move hands every element to the target and leaves the source
      addressing nothing. */
  lemma MoveTransfersElements<T>(heap: Heap<T>, t: Tensor, index: int)
    requires Backed(heap, t)
    ensures Backed(heap, MoveOf(t).0) && Backed(heap, MoveOf(t).1)
    ensures Get(heap, MoveOf(t).0, index) == Get(heap, t, index)
    ensures Get(heap, MoveOf(t).1, index) == Err(OutOfRange(IndexOutOfRange))
  {
  }

  /** reshape keeps the tensor invariant. */
  lemma ReshapeValid(t: Tensor, shape: seq<int>)
    requires ProductFits(shape) && Reshape(t, shape).Ok?
    ensures Valid(Reshape(t, shape).value)
  {
  }

  /** reshape keeps linear (flat) order: the view reads the same element at
      every linear index as its source. */
  lemma ReshapeKeepsFlatOrder<T>(heap: Heap<T>, t: Tensor, shape: seq<int>, index: int)
    requires Backed(heap, t) && ProductFits(shape) && Reshape(t, shape).Ok?
    ensures Backed(heap, Reshape(t, shape).value)
    ensures Get(heap, Reshape(t, shape).value, index) == Get(heap, t, index)
  {
  }

  /** Reshaping a C-order tensor and reshaping back restores it exactly. */
  lemma ReshapeRoundTrip(t: Tensor, shape: seq<int>)
    requires Valid(t) && t.shape != [] && IsCOrder(t.shape, t.strides)
    requires ProductFits(t.shape) && ProductFits(shape) && Reshape(t, shape).Ok?
    ensures Reshape(Reshape(t, shape).value, t.shape) == Ok(t)
  {
    COrderUnique(t.shape, t.strides);
  }

  /** Transposing by a permutation keeps the tensor invariant: the permuted
      extents have the same product. */
  lemma TransposeValid(t: Tensor, axes: seq<int>)
    requires Valid(t) && IsPermutation(axes) && |axes| == |t.shape| && axes != []
    ensures Transpose(t, axes).Ok?
    ensures Valid(Transpose(t, axes).value)
  {
    ProductPermute(t.shape, axes);
  }

  /** Transposing by the inverse permutation undoes a transpose. */
  lemma TransposeRoundTrip(t: Tensor, axes: seq<int>)
    requires |t.strides| == |t.shape| && IsPermutation(axes) && |axes| == |t.shape| && axes != []
    ensures Transpose(t, axes).Ok?
    ensures Transpose(Transpose(t, axes).value, Inverse(axes)) == Ok(t)
  {
    var inv := Inverse(axes);
    var u := Transpose(t, axes).value;
    var w := Transpose(u, inv).value;
    assert w.shape == t.shape;
    assert w.strides == t.strides;
  }

  /** Element [indices] of a transposed tensor is element [src] of its
      source, where src[axes[i]] == indices[i]. */
  lemma TransposeAddressing<T>(heap: Heap<T>, t: Tensor, axes: seq<int>, indices: seq<int>)
    requires |t.strides| == |t.shape| && IsPermutation(axes) && |axes| == |t.shape| && axes != []
    requires Backed(heap, t) && |indices| == |axes|
    ensures Transpose(t, axes).Ok?
    ensures Backed(heap, Transpose(t, axes).value)
    ensures GetAt(heap, Transpose(t, axes).value, indices) == GetAt(heap, t, Permute(indices, Inverse(axes)))
  {
    PermutedOffset(t.strides, axes, indices);
  }

  /** Every multi-index in range on every axis addresses an element. This is
      the invariant that makes non-contiguous views safe to index. */
  ghost predicate AddressesInBounds(t: Tensor)
  {
    && |t.strides| == |t.shape|
    && forall indices :: |indices| == |t.shape| && InRange(t.shape, indices) ==>
         0 <= Offset(indices, t.strides) < t.size
  }

  /** A valid C-order tensor addresses within bounds. */
  lemma COrderInBounds(t: Tensor)
    requires Valid(t) && t.shape != [] && IsCOrder(t.shape, t.strides)
    ensures AddressesInBounds(t)
  {
    COrderUnique(t.shape, t.strides);
    forall indices | |indices| == |t.shape| && InRange(t.shape, indices)
      ensures 0 <= Offset(indices, t.strides) < t.size
    {
      OffsetBoundFull(t.shape, indices);
    }
  }

  /** Transposing by a permutation keeps every in-range multi-index within
      bounds, although the strides are no longer C-order. */
  lemma TransposeInBounds(t: Tensor, axes: seq<int>)
    requires AddressesInBounds(t) && IsPermutation(axes) && |axes| == |t.shape| && axes != []
    ensures Transpose(t, axes).Ok?
    ensures AddressesInBounds(Transpose(t, axes).value)
  {
    var u := Transpose(t, axes).value;
    var inv := Inverse(axes);
    forall indices | |indices| == |u.shape| && InRange(u.shape, indices)
      ensures 0 <= Offset(indices, u.strides) < u.size
    {
      var src := Permute(indices, inv);
      forall j | 0 <= j < |src|
        ensures 0 <= src[j] < t.shape[j]
      {
        assert src[j] == indices[inv[j]];
        assert u.shape[inv[j]] == t.shape[axes[inv[j]]];
      }
      PermutedOffset(t.strides, axes, indices);
    }
  }

  /** Multi-index access never fails on an in-range multi-index of a tensor
      that addresses within bounds. */
  lemma GetAtInRange<T>(heap: Heap<T>, t: Tensor, indices: seq<int>)
    requires Backed(heap, t) && AddressesInBounds(t)
    requires |indices| == |t.shape| && InRange(t.shape, indices)
    ensures GetAt(heap, t, indices).Ok?
  {
  }

  /** On a non-empty C-order tensor, in-range indices over any prefix of the
      axes address an element (the unindexed trailing axes count as 0). */
  lemma GetAtPrefixInRange<T>(heap: Heap<T>, t: Tensor, indices: seq<int>)
    requires Valid(t) && IsCOrder(t.shape, t.strides) && 0 < t.size
    requires Backed(heap, t) && InRange(t.shape, indices)
    ensures GetAt(heap, t, indices).Ok?
  {
    COrderUnique(t.shape, t.strides);
    OffsetBound(t.shape, indices);
  }
}

=== FILE: wrappers.dfy ===
/** Failure-carrying results of tensor operations.
    The two error kinds mirror the exceptions the tensor throws:
    std::invalid_argument and std::out_of_range, each with its message. */
module Wrappers {

  datatype Option<+T> = None | Some(value: T)

  datatype Error = InvalidArgument(message: string) | OutOfRange(message: string)

  datatype Result<+R> = Ok(value: R) | Err(error: Error)

  const EmptyShape: string := "shape must not be empty"
  const NullData: string := "data must not be null"
  const EmptyData: string := "data must not be empty"
  const SizeMismatch: string := "size mismatch"
  const EmptyAxes: string := "axes must not be empty"
  const AxesSizeMismatch: string := "axes size mismatch"
  const IndexOutOfRange: string := "index out of range"
}
